=== FILE: README.md ===
# md-docs-manager, modelled in Dafny

md-docs-manager is a single-page browser application that lists, views,
edits, creates, uploads and deletes Markdown documents kept in a directory of
a GitHub repository, talking to the GitHub contents API. This project models
its core:

- **the view state** (`screens.dfy`): three screens shown or hidden through
  their `hidden` class (Welcome, Viewer, Editor), the open document, the file
  list and the editor form, and every user action as a pure transition that
  also returns the write requests it sent;
- **the write requests** (`requests.dfy`): the PUT built by `saveFileToGitHub`
  for a save or an upload, the DELETE built by `deleteFileFromGitHub`, and the
  checks `saveDocument` and `handleFileUpload` make before sending;
- **the list filters** (`listing.dfy`): the `.md` filter applied to a
  directory listing, the handling of a failed listing, and the search box.
  A failed listing is handled both as written and corrected (see Findings);
  the page model reloads through the corrected version;
- **the OAuth `state` token** (`statetoken.dfy`): 16 random bytes written as
  32 lower-case hexadecimal digits, two per byte, plus a decoder that shows
  the encoding loses nothing.

Every awaited call is an input to the model: the text a download returned,
whether the user confirmed a deletion, what the API answered to a write and to
the list reload that follows it. `common.dfy` holds `Option` and `Outcome`,
`strings.dfy` the JavaScript string operations the code relies on (`trim`,
ASCII `toLowerCase`, `includes`, `endsWith`), `seqs.dfy` an order-keeping
filter with its lemmas, and `documents.dfy` the repository entry, open
document and repository settings.

The central properties:

- any sequence of user actions keeps exactly one screen visible, the Welcome
  screen visible exactly when no document is open, and only `.md` files in the
  list (`Screens.RunPreservesConsistent`);
- every write any sequence of actions sends goes to branch `main`, and every
  PUT goes to a path ending in `.md` (`Screens.RunWritesAllowed`);
- opening, editing and saving a document under its own name sends one update
  carrying the hash it was read with (`Screens.OpenEditSaveIsUpdate`);
- the state token is 32 hexadecimal digits and decodes back to its bytes
  (`StateToken.GenerateState`, `StateToken.DecodeEncode`).

## Model

| member | source | states |
|---|---|---|
| Listing.MarkdownEntries | app.js:193 | the list kept after a listing holds exactly the entries whose name ends in ".md", each as often as in the listing and in the listing's order |
| Listing.LoadFilesAsWritten | app.js:178-210 | `loadFiles` as written: no request and an unchanged list for an unconfigured repository; a listing leaves its ".md" entries; a failure whose error text contains "404" empties the list; any other failure keeps it; a list of ".md" files stays one |
| Listing.NotFoundIsMissedAsWritten | app.js:155-158 | a 404 answer whose error text is "Not Found" keeps the old list as written, while the corrected version empties it |
| Listing.LoadFiles | app.js:178-210 | `loadFiles` with a missing directory recognised by its 404 status: the same as above, except that the 404 status rather than the text decides when the list is emptied |
| Listing.LoadFilesAgreeOnHonestMessages | app.js:196 | the written and the corrected `loadFiles` agree on every reply whose error text mentions "404" exactly when the status is 404 |
| Listing.Search | app.js:371-376 | the search shows, in list order, exactly the entries whose lower-cased name contains the lower-cased query |
| Listing.SearchEmptyQuery | app.js:371-376 | an empty search box shows the whole list |
| Listing.SearchIgnoresQueryCase | app.js:372 | the case of the query does not change what is shown |
| Listing.SearchShowsMarkdown | app.js:193 | searching a loaded list only ever shows ".md" files |
| Requests.SaveFile | app.js:225-243 | the PUT goes to the repository's directory prefix followed by the file name, on branch "main", with the given message and text; the hash is attached exactly when it is given and non-empty |
| Requests.SaveDocument | app.js:425-444 | the trimmed name is rejected exactly when it is empty or does not end in ".md"; otherwise one PUT to a ".md" path, "Update" with the open document's hash when one is open, "Create" with no hash otherwise |
| Requests.DeleteFile | app.js:264-278 | a DELETE of the entry's own path with its hash and message "Delete <name>" is sent exactly when the user confirms |
| Requests.UploadPut | app.js:301-302 | a file whose text was read is written as a create of that text with no hash and message "Upload <name>" |
| Requests.Readable | app.js:301 | the number of accepted files read before the first whose text cannot be read |
| Requests.Sends | app.js:295-303 | the loop over the accepted files sends, one for one and in order, the creates of the files read before the first unreadable one, and nothing after it |
| Requests.UploadRequests | app.js:292-303 | the requests of an upload are, one for one and in the order picked, the creates of the picked ".md" files up to the first one whose text cannot be read, where the upload ends; other files are skipped unread |
| Requests.UploadSendsEveryReadableFile | app.js:292-303 | when every picked ".md" file can be read, each of them is sent |
| Requests.UploadWritesMarkdown | app.js:296-302 | an upload only ever creates files at a ".md" path |
| Requests.UploadRequestsFirst | app.js:295-303 | the upload's requests one picked file at a time: a file not ending in ".md" adds nothing, an unreadable ".md" file ends the upload, a readable one is created before the rest |
| Requests.SendsConcat | app.js:295-303 | when every file of a first batch can be read, sending two batches in a row is sending the first and then the second |
| Requests.UploadRequestsConcat | app.js:292-303 | when every picked ".md" file of a first batch can be read, uploading two batches of files in a row sends the requests of the first and then those of the second |
| Screens.Init | app.js:17-18 | the page starts consistent: no open document and an empty list (the initial `state`), with Welcome alone visible as the page's markup starts it |
| Screens.ShowWelcome | app.js:380-385 | only Welcome is visible and no document is open; repository, list and form are untouched |
| Screens.ShowViewer | app.js:387-391 | only Viewer is visible; nothing else changes |
| Screens.ShowEditor | app.js:393-397 | only Editor is visible; nothing else changes |
| Screens.ViewDocument | app.js:400-413 | a fetched document becomes the open document and the Viewer is shown; a failed fetch changes nothing |
| Screens.EditCurrent | app.js:416-423 | with a document open the form is filled with its name and text and only the Editor is shown; without one nothing changes; the file list and the repository are never touched |
| Screens.CancelEdit | app.js:451-457 | with a document open it is fetched and viewed again (a failed fetch changes nothing); without one, Welcome; the file list, the form and the repository are never touched |
| Screens.AfterWrite | app.js:281-282 | after a successful write the list is reloaded, the document closed and Welcome shown; the repository and the form are kept |
| Screens.SaveEditor | app.js:425-449 | a rejected name sends nothing and changes nothing; otherwise the one PUT of `SaveDocument` is sent, a failed write changes nothing, and a successful one reloads the list and closes the document on the Welcome screen (`AfterWrite`) |
| Screens.DeleteCurrent | app.js:459-462 | without an open document or without confirmation nothing is sent; otherwise one DELETE of the open document; its failure changes nothing and its success reloads the list and closes the document on the Welcome screen (`AfterWrite`) |
| Screens.AfterUploadWrite | app.js:244-257 | after one upload PUT a failure changes nothing and a success reloads the list and changes nothing else |
| Screens.UploadFiles | app.js:292-306 | an upload changes only the file list and keeps it ".md"-only; it leaves the whole page unchanged when it sends nothing and when no write succeeds |
| Screens.UploadFilesSends | app.js:292-303 | an upload sends exactly the requests of `UploadRequests` for the picked files, stopping at an unreadable ".md" file |
| Screens.Step | app.js:84-96 | no action changes the repository settings, and only the save, delete and upload controls send writes |
| Screens.RunCons | app.js:400-462 | a sequence of actions is its first action followed by the rest, the requests of both in order |
| Screens.SavePreservesConsistent | app.js:425-449 | saving keeps the page consistent |
| Screens.DeletePreservesConsistent | app.js:459-462 | deleting keeps the page consistent |
| Screens.UploadPreservesConsistent | app.js:292-306 | uploading keeps the page consistent |
| Screens.ViewPreservesConsistent | app.js:400-413 | opening a document keeps the page consistent |
| Screens.EditPreservesConsistent | app.js:416-423 | the edit button keeps the page consistent |
| Screens.CancelPreservesConsistent | app.js:451-457 | cancelling an edit keeps the page consistent |
| Screens.StepPreservesConsistent | app.js:380-462 | every single action keeps exactly one screen visible, Welcome visible exactly when no document is open, and only ".md" files listed |
| Screens.RunPreservesConsistent | app.js:380-462 | any sequence of actions keeps the page consistent |
| Screens.EditorOnlyThroughEdit | app.js:416-423 | the Editor only appears through the edit button, and only with a document open |
| Screens.ViewerOnlyAfterFetch | app.js:400-457 | the Viewer only appears after a document's text was fetched, on opening it or on cancelling an edit, and then a document is open |
| Screens.SaveWritesAllowed | app.js:233-238 | a save only sends a PUT on branch "main" to a ".md" path |
| Screens.DeleteWritesAllowed | app.js:269-277 | a delete only sends a DELETE on branch "main" |
| Screens.UploadWritesAllowed | app.js:296-302 | an upload only sends PUTs on branch "main" to ".md" paths |
| Screens.StepWritesAllowed | app.js:235-277 | every request one action sends is on branch "main", and every PUT goes to a ".md" path |
| Screens.RunWritesAllowed | app.js:225-306 | the same for every request any sequence of actions sends |
| Screens.UnrenamedSaveIsUpdate | app.js:439-444 | saving an open document under its own name is an update carrying its hash |
| Screens.OpenEditType | app.js:400-423 | opening, editing and typing leaves the document open with its own name and the new text in the form, having sent nothing |
| Screens.EditorSaveIsUpdate | app.js:393-442 | on a consistent page a save pressed in the Editor can only send an update of the trimmed name, since the Editor is only shown with a document open; no control reaches the "Create" message |
| Screens.SaveUnrenamed | app.js:425-449 | a successful save of an open, unrenamed document sends one update with its hash and returns to Welcome |
| Screens.FoldAppend | app.js:400-462 | running two sequences of actions one after the other is running their concatenation |
| Screens.RunAppend | app.js:400-462 | the same for the page's own actions |
| Screens.OpenEditSaveIsUpdate | app.js:400-449 | open, edit, type and save under the same name sends exactly one update with the hash the document was read with, and ends on Welcome with no document open |
| Screens.OpenDeleteReturnsToWelcome | app.js:264-289 | open then confirm a delete sends exactly one DELETE of that path with its hash and ends on Welcome; when the reloaded listing no longer holds the entry, neither does the list |
| Screens.UploadOneReloadsList | app.js:292-303 | uploading one readable ".md" file whose PUT succeeds sends that one create and reloads the list, which then holds the ".md" entries of the new listing; nothing else on the page changes |
| Screens.UploadFilesStep | app.js:295-303 | past a first picked file that does not end it, an upload goes on from the page that file's write left, or from the same page when the file was skipped |
| Screens.UploadLastFile | app.js:253 | the successful PUT of the last picked ".md" file leaves the list as the listing its reload answered |
| Screens.UploadPastFirst | app.js:295-303 | with more than one file picked, the list ends as the reload of the last successful PUT leaves it, when that PUT is the last picked file's |
| Screens.UploadEndsWithLastReload | app.js:295-303 | when every picked ".md" file can be read and the last picked file is a ".md" file whose write succeeded, the list ends as that last reload left it, whatever earlier skips, failures and reloads did |
| Screens.DeleteThenNotFoundAsWritten | app.js:196 | deleting the open document when the reload answers 404 "Not Found" empties the list in this model, while `loadFiles` as written keeps the old list with the deleted entry in it |
| StateToken.HexDigit | oauth-config.js:16 | a value below 16 is written as one lower-case hexadecimal digit |
| StateToken.Radix16 | oauth-config.js:16 | `toString(16)` of a number: one digit exactly below 16, and no leading zero |
| StateToken.PadStart | oauth-config.js:16 | `padStart` fills on the left up to the width and keeps the string as its tail |
| StateToken.ByteHex | oauth-config.js:16 | a byte is written as two hexadecimal digits, the first "0" below 16 |
| StateToken.ByteHexIsPaddedRadix16 | oauth-config.js:16 | those two digits are `toString(16)` padded to width 2 with "0" |
| StateToken.Encode | oauth-config.js:15-17 | the joined digits are twice as long as the bytes |
| StateToken.GenerateState | oauth-config.js:14-18 | 16 bytes give a 32-character token of hexadecimal digits only |
| StateToken.EncodeIsHex | oauth-config.js:15-17 | every character of an encoding is a hexadecimal digit |
| StateToken.EncodeAt | oauth-config.js:15-17 | characters 2i and 2i+1 of an encoding are the digits of byte i |
| StateToken.EncodeConcat | oauth-config.js:17 | encoding distributes over concatenation, as `join('')` does |
| StateToken.DigitValue | oauth-config.js:16 | a character has a digit value exactly when it is a lower-case hexadecimal digit, and that value writes back to it |
| StateToken.Decode | oauth-config.js:14-18 | a string decodes exactly when it has even length and only hexadecimal digits, and then it is the encoding of what it decodes to |
| StateToken.DecodeEncode | oauth-config.js:14-18 | decoding an encoding gives back the bytes |
| StateToken.EncodeInjective | oauth-config.js:14-18 | different byte sequences never give the same token |
| Strings.EndsWithAppend | app.js:233 | a prefix does not change what a string ends with, so a ".md" name gives a ".md" path |
| Strings.SkipLeading | app.js:426 | the first non-whitespace position from a start |
| Strings.SkipTrailing | app.js:426 | the position after the last non-whitespace character down to a bound |
| Strings.Trim | app.js:426 | `trim` leaves a middle slice of the input with only whitespace around it, and the slice neither starts nor ends with whitespace |
| Strings.TrimIdempotent | app.js:426 | trimming twice is trimming once |
| Strings.Lower | app.js:372-374 | lower-casing keeps the length, turns each letter A to Z into its lower-case letter and changes no other character |
| Strings.LowerIdempotent | app.js:372-374 | lower-casing twice is lower-casing once |
| Strings.Includes | app.js:374 | `includes` holds exactly when the query occurs at some position |
| Strings.EmptyIncluded | app.js:374 | every string includes the empty string |
| Seqs.Filter | app.js:193 | `filter` keeps, in order, exactly the elements satisfying the test, each as often as it occurs |
| Seqs.FilterIsKeep | app.js:193 | the specified filter and the plain element-by-element selection give the same result |
| Seqs.KeepConcat | app.js:193 | the plain selection distributes over concatenation |
| Seqs.FilterConcat | app.js:193 | filtering a concatenation is concatenating the filtered parts |
| Seqs.FilterKeepsAll | app.js:373-375 | a test every element passes keeps the whole sequence |
| Seqs.FilterAgrees | app.js:373-375 | two tests that agree on every element filter alike |

## Left out

- Network calls (`githubAPI`, `fetch` of a download URL, `getFileContent`): their outcomes are inputs to the actions; no request is sent and no JSON is parsed.
- Logout, the personal-token prompt, `handleOAuthCallback`, the theme and `localStorage` are not modelled: they do not touch the documents or the screens modelled here. Login is modelled only through the list reload its `loadUser` ends with (app.js:122, app.js:168), the `Reload` action.
- `loadUser` and `saveRepoConfig` are modelled only through the list reload they end with (app.js:168, app.js:324), the `Reload` action. The settings change itself is not: the repository is fixed for a whole sequence of actions, so changing it with a document open, after which a save sends the old hash to the new repository, is not covered.
- Rendering (`renderFileList`, `renderMarkdown` with marked and highlight.js, the live preview) and the loading overlay: assumed not to fail, they change no modelled state.
- The download button: it builds a blob in the browser and changes nothing.
- Requests.Request: carries the document text, not its base64 encoding of the UTF-8 bytes (`btoa(unescape(encodeURIComponent(...)))`), which is an encoding detail with no effect on the properties.
- StateToken.GenerateState: the 16 random bytes of `crypto.getRandomValues` are a parameter.
- Strings.Lower: lower-cases only A to Z, where `toLowerCase` also maps non-ASCII letters.
- Listing.LoadFiles: a listing that is not an array (the path names a file) is not modelled; a reply is either a list of entries or a failure.
- Screens.AfterWrite: the page reloads through the corrected, status-based `Listing.LoadFiles`, as do the upload and the `Reload` action, not through `loadFiles` as written. The two differ only on a failure where the 404 status and a mention of "404" in the error text disagree (`Listing.LoadFilesAgreeOnHonestMessages`), such as the 404 "Not Found" answer after the last document of a directory is deleted (`Screens.DeleteThenNotFoundAsWritten`).
- Screens.Step: an `Open` action may carry any entry, not only one from the current list, which only widens what the properties cover.
- Screens.Step: an action is not tied to the screen that holds its button (a save may be taken on the Welcome screen); `Screens.EditorSaveIsUpdate` covers a save taken where its button is.
- Concurrency: actions are taken one at a time, each after the previous one's awaited calls finished.

## Findings

| source | as written | input that shows it | evidently intended | confidence | as-written member | corrected member |
|---|---|---|---|---|---|---|
| app.js:196 | a failed listing empties the list only when the error text contains "404", but `githubAPI` throws the body's `message`, which for a missing directory is "Not Found" | a configured repository whose directory does not exist: status 404, body `{"message": "Not Found"}` | the list is emptied and the "No documents found" state shown | medium, not executed | Listing.LoadFilesAsWritten, Listing.NotFoundIsMissedAsWritten | Listing.LoadFiles |

=== FILE: common.dfy ===
/** Small failure-carrying datatypes shared by the whole model. */
module Common {

  /** A value that may be absent (JavaScript `null`/`undefined`). */
  datatype Option<+T> = None | Some(value: T)

  /** The outcome of an awaited call: its value, or the message of the error it threw. */
  datatype Outcome<+T> = Ok(value: T) | Err(message: string)
}

=== FILE: documents.dfy ===
/** The records the application keeps in memory. */
module Documents {
  import opened Common

  /** One entry of a repository directory listing, as the hosting API returns it. */
  datatype Entry = Entry(name: string, path: string, sha: string, downloadUrl: string)

  /** The open document: a listing entry together with the text fetched from its download URL. */
  datatype Doc = Doc(entry: Entry, content: string)

  /** Where documents live: repository owner, repository name and the directory prefix inside it. */
  datatype RepoTarget = RepoTarget(owner: string, name: string, path: string)

  /** A file the user picked for upload, with what reading its text (`file.text()`) gave: the text or a failure. */
  datatype LocalFile = LocalFile(name: string, text: Outcome<string>)

  /** The repository settings are filled in (both owner and name are non-empty, i.e. truthy). */
  predicate Configured(repo: RepoTarget) {
    repo.owner != "" && repo.name != ""
  }
}

=== FILE: listing.dfy ===
/** Directory listings: the `.md` filter applied on load, and the search box filter. */
module Listing {
  import opened Common
  import opened Strings
  import opened Seqs
  import opened Documents

  /** The only file kind the application handles: names ending in ".md" (case-sensitive). */
  predicate IsMarkdownName(name: string) {
    EndsWith(name, ".md")
  }

  ghost predicate AllMarkdown(files: seq<Entry>) {
    forall i :: 0 <= i < |files| ==> IsMarkdownName(files[i].name)
  }

  /**
   * The file list kept after a listing: exactly the entries whose name ends in
   * ".md", every occurrence of them, in the order the listing gave them.
   */
  function MarkdownEntries(contents: seq<Entry>): (r: seq<Entry>)
    ensures IsSubsequence(r, contents)
    ensures AllMarkdown(r)
    ensures forall e :: e in r <==> e in contents && IsMarkdownName(e.name)
    ensures forall e :: multiset(r)[e] == if IsMarkdownName(e.name) then multiset(contents)[e] else 0
  {
    var r := Filter((e: Entry) => IsMarkdownName(e.name), contents);
    assert forall i :: 0 <= i < |r| ==> r[i] in r;
    r
  }

  /**
   * The answer to a listing request. A failure carries the HTTP status (None
   * when no response arrived) and the text `githubAPI` throws: the `message`
   * field of the error body, or "GitHub API error" when it has none.
   */
  datatype ListReply = Listed(contents: seq<Entry>) | ListFailed(status: Option<nat>, message: string)

  /** The test `loadFiles` makes on a failure: the error text mentions "404". */
  predicate MentionsNotFound(message: string) {
    Includes(message, "404")
  }

  /**
   * `loadFiles` as written: an unconfigured repository sends no request and
   * keeps the list; a listing keeps its ".md" entries; a failure whose text
   * mentions "404" empties the list and any other failure is only reported.
   */
  function LoadFilesAsWritten(repo: RepoTarget, files: seq<Entry>, reply: ListReply): (r: seq<Entry>)
    ensures AllMarkdown(files) ==> AllMarkdown(r)
    ensures r != files ==> Configured(repo) && (reply.Listed? || MentionsNotFound(reply.message))
    ensures Configured(repo) && reply.Listed? ==> r == MarkdownEntries(reply.contents)
    ensures Configured(repo) && reply.ListFailed? && MentionsNotFound(reply.message) ==> r == []
  {
    if !Configured(repo) then
      files
    else
      match reply
      case Listed(contents) => MarkdownEntries(contents)
      case ListFailed(_, message) => if MentionsNotFound(message) then [] else files
  }

  /**
   * The hosting API answers a missing directory with status 404 and the error
   * text "Not Found", which does not mention "404": the failure is reported and
   * the old list kept instead of being emptied.
   */
  lemma NotFoundIsMissedAsWritten(repo: RepoTarget, files: seq<Entry>)
    requires Configured(repo) && files != []
    ensures LoadFilesAsWritten(repo, files, ListFailed(Some(404), "Not Found")) == files
    ensures LoadFiles(repo, files, ListFailed(Some(404), "Not Found")) == []
  {
    var text := "Not Found";
    forall i: nat
      ensures !OccursAt(text, "404", i)
    {
      if i + 3 <= |text| {
        assert text[i..i + 3][0] == text[i] != '4';
      }
    }
    assert !MentionsNotFound(text);
  }

  /**
   * The file list after a `loadFiles`, with a missing directory recognised by
   * its 404 status: it then holds no files, as it does after a listing with no
   * ".md" entry. An unconfigured repository and every other failure keep it.
   */
  function LoadFiles(repo: RepoTarget, files: seq<Entry>, reply: ListReply): (r: seq<Entry>)
    ensures AllMarkdown(files) ==> AllMarkdown(r)
    ensures r != files ==> Configured(repo) && (reply.Listed? || reply.status == Some(404))
    ensures Configured(repo) && reply.Listed? ==> r == MarkdownEntries(reply.contents)
    ensures Configured(repo) && reply.ListFailed? && reply.status == Some(404) ==> r == []
  {
    if !Configured(repo) then
      files
    else
      match reply
      case Listed(contents) => MarkdownEntries(contents)
      case ListFailed(status, _) => if status == Some(404) then [] else files
  }

  /** The two agree whenever the error text mentions "404" exactly when the status is 404. */
  lemma LoadFilesAgreeOnHonestMessages(repo: RepoTarget, files: seq<Entry>, reply: ListReply)
    requires reply.ListFailed? ==> (MentionsNotFound(reply.message) <==> reply.status == Some(404))
    ensures LoadFiles(repo, files, reply) == LoadFilesAsWritten(repo, files, reply)
  {
  }

  /**
   * The list shown for a search query: the entries whose lower-cased name
   * contains the lower-cased query, in list order.
   */
  function Search(files: seq<Entry>, query: string): (r: seq<Entry>)
    ensures IsSubsequence(r, files)
    ensures forall f :: f in r <==> f in files && Contains(Lower(f.name), Lower(query))
    ensures forall f :: multiset(r)[f] == if Contains(Lower(f.name), Lower(query)) then multiset(files)[f] else 0
  {
    Filter((f: Entry) => Includes(Lower(f.name), Lower(query)), files)
  }

  /** An empty query shows the whole list. */
  lemma SearchEmptyQuery(files: seq<Entry>)
    ensures Search(files, "") == files
  {
    forall i | 0 <= i < |files|
      ensures Includes(Lower(files[i].name), Lower(""))
    {
      EmptyIncluded(Lower(files[i].name));
    }
    FilterKeepsAll((f: Entry) => Includes(Lower(f.name), Lower("")), files);
  }

  /** The case of the query does not matter. */
  lemma SearchIgnoresQueryCase(files: seq<Entry>, query: string)
    ensures Search(files, query) == Search(files, Lower(query))
  {
    LowerIdempotent(query);
    FilterAgrees((f: Entry) => Includes(Lower(f.name), Lower(query)),
                 (f: Entry) => Includes(Lower(f.name), Lower(Lower(query))), files);
  }

  /** Searching a loaded list only ever shows markdown files. */
  lemma SearchShowsMarkdown(files: seq<Entry>, query: string)
    requires AllMarkdown(files)
    ensures AllMarkdown(Search(files, query))
  {
    var r := Search(files, query);
    forall i | 0 <= i < |r|
      ensures IsMarkdownName(r[i].name)
    {
      assert r[i] in files;
    }
  }
}

=== FILE: requests.dfy ===
/**
 * The write requests the application sends to the hosting API's contents
 * endpoint, `/repos/{owner}/{repo}/contents/{path}`, and the checks made
 * before sending them.
 */
module Requests {
  import opened Common
  import opened Strings
  import opened Seqs
  import opened Documents
  import opened Listing

  /** Every write goes to this branch. */
  const Branch: string := "main"

  /**
   * A write request. `text` is the document text the body's `content` field is
   * encoded from (UTF-8, then base64); a `Put` without `sha` creates a file,
   * one with `sha` replaces the version with that hash.
   */
  datatype Request =
    | Put(owner: string, repo: string, path: string, message: string, text: string,
          branch: string, sha: Option<string>)
    | Delete(owner: string, repo: string, path: string, message: string, fileSha: string, branch: string)

  /** Why a user action sent nothing. */
  datatype Rejection = MissingName | NotMarkdown | Declined

  datatype Decision = Rejected(reason: Rejection) | Send(request: Request)

  /**
   * `saveFileToGitHub`: the PUT for `fileName` under the repository's directory
   * prefix. The hash is attached only when it is given and non-empty (truthy).
   */
  function SaveFile(repo: RepoTarget, fileName: string, text: string, message: string,
                    sha: Option<string>): (r: Request)
    ensures r.Put? && r.owner == repo.owner && r.repo == repo.name && r.branch == Branch
    ensures r.path == repo.path + fileName && r.message == message && r.text == text
    ensures r.sha.Some? <==> sha.Some? && sha.value != ""
    ensures r.sha.Some? ==> r.sha == sha
  {
    var attached := if sha.Some? && sha.value != "" then sha else None;
    Put(repo.owner, repo.name, repo.path + fileName, message, text, Branch, attached)
  }

  /**
   * `saveDocument`: the editor's name field is trimmed and must be non-empty and
   * end in ".md", otherwise nothing is sent. With a document open the request is
   * an update carrying that document's hash, even when the name was changed;
   * without one it is a create with no hash.
   */
  function SaveDocument(repo: RepoTarget, current: Option<Doc>, nameInput: string, text: string)
    : (d: Decision)
    ensures d.Rejected? <==> Trim(nameInput) == "" || !IsMarkdownName(Trim(nameInput))
    ensures d.Rejected? ==> d.reason == if Trim(nameInput) == "" then MissingName else NotMarkdown
    ensures d.Send? ==>
      var name := Trim(nameInput);
      && d.request.Put?
      && d.request.owner == repo.owner && d.request.repo == repo.name
      && d.request.path == repo.path + name && EndsWith(d.request.path, ".md")
      && d.request.branch == Branch && d.request.text == text
      && d.request.message == (if current.Some? then "Update " else "Create ") + name
      && (d.request.sha.Some? <==> current.Some? && current.value.entry.sha != "")
      && (d.request.sha.Some? ==> d.request.sha.value == current.value.entry.sha)
  {
    var name := Trim(nameInput);
    if name == "" then
      Rejected(MissingName)
    else if !IsMarkdownName(name) then
      Rejected(NotMarkdown)
    else
      var sha := if current.Some? then Some(current.value.entry.sha) else None;
      var message := (if current.Some? then "Update " else "Create ") + name;
      EndsWithAppend(repo.path, name, ".md");
      Send(SaveFile(repo, name, text, message, sha))
  }

  /**
   * `deleteFileFromGitHub`: after the user confirms, a DELETE of the entry's own
   * path with its hash; a declined confirmation sends nothing.
   */
  function DeleteFile(repo: RepoTarget, entry: Entry, confirmed: bool): (d: Decision)
    ensures d.Rejected? <==> !confirmed
    ensures d.Rejected? ==> d.reason == Declined
    ensures d.Send? ==>
      && d.request.Delete?
      && d.request.owner == repo.owner && d.request.repo == repo.name
      && d.request.path == entry.path && d.request.fileSha == entry.sha
      && d.request.message == "Delete " + entry.name && d.request.branch == Branch
  {
    if !confirmed then
      Rejected(Declined)
    else
      Send(Delete(repo.owner, repo.name, entry.path, "Delete " + entry.name, entry.sha, Branch))
  }

  predicate IsMarkdownFile(f: LocalFile) {
    IsMarkdownName(f.name)
  }

  /** The PUT `handleFileUpload` sends for one accepted file whose text was read: a create, never an update. */
  function UploadPut(repo: RepoTarget, f: LocalFile): (r: Request)
    requires f.text.Ok?
    ensures r.Put? && r.sha == None && r.branch == Branch
    ensures r.path == repo.path + f.name && r.text == f.text.value
    ensures r.message == "Upload " + f.name
  {
    SaveFile(repo, f.name, f.text.value, "Upload " + f.name, None)
  }

  /**
   * How many of the accepted files are read before the first whose text cannot
   * be read: the position of that file, or all of them.
   */
  function Readable(accepted: seq<LocalFile>): (n: nat)
    ensures n <= |accepted|
    ensures forall k :: 0 <= k < n ==> accepted[k].text.Ok?
    ensures n == |accepted| || accepted[n].text.Err?
  {
    if |accepted| == 0 || accepted[0].text.Err? then 0 else 1 + Readable(accepted[1..])
  }

  /**
   * The loop of `handleFileUpload` over the accepted files: each is read and
   * sent in turn, and a text that cannot be read ends the upload there (the
   * read is outside any `try`), so no later file is sent.
   */
  function Sends(repo: RepoTarget, accepted: seq<LocalFile>): (r: seq<Request>)
    ensures |r| == Readable(accepted)
    ensures forall k :: 0 <= k < |r| ==> accepted[k].text.Ok? && r[k] == UploadPut(repo, accepted[k])
  {
    if |accepted| == 0 || accepted[0].text.Err? then
      []
    else
      [UploadPut(repo, accepted[0])] + Sends(repo, accepted[1..])
  }

  /**
   * `handleFileUpload`: every file not ending in ".md" is skipped unread; the
   * others are read and sent, in the order picked, as the k-th request, up to
   * the first whose text cannot be read.
   */
  function UploadRequests(repo: RepoTarget, files: seq<LocalFile>): (r: seq<Request>)
    ensures var accepted := Filter(IsMarkdownFile, files);
      && |r| == Readable(accepted)
      && forall k :: 0 <= k < |r| ==> accepted[k].text.Ok? && r[k] == UploadPut(repo, accepted[k])
  {
    Sends(repo, Filter(IsMarkdownFile, files))
  }

  /** The upload's requests, one picked file at a time: a skipped file sends nothing, an unreadable ".md" file ends the upload. */
  lemma UploadRequestsFirst(repo: RepoTarget, files: seq<LocalFile>)
    requires |files| > 0
    ensures UploadRequests(repo, files)
         == if !IsMarkdownFile(files[0]) then UploadRequests(repo, files[1..])
            else if files[0].text.Err? then []
            else [UploadPut(repo, files[0])] + UploadRequests(repo, files[1..])
  {
    var later := Filter(IsMarkdownFile, files[1..]);
    if IsMarkdownFile(files[0]) {
      assert Filter(IsMarkdownFile, files) == [files[0]] + later;
      assert ([files[0]] + later)[1..] == later;
    }
  }

  /** When every accepted file can be read, each of them is sent. */
  lemma UploadSendsEveryReadableFile(repo: RepoTarget, files: seq<LocalFile>)
    requires forall f :: f in files && IsMarkdownFile(f) ==> f.text.Ok?
    ensures |UploadRequests(repo, files)| == |Filter(IsMarkdownFile, files)|
  {
    var accepted := Filter(IsMarkdownFile, files);
    forall k | 0 <= k < |accepted|
      ensures accepted[k].text.Ok?
    {
      assert accepted[k] in files;
    }
  }

  /** Uploads only ever create markdown files. */
  lemma UploadWritesMarkdown(repo: RepoTarget, files: seq<LocalFile>)
    ensures forall r :: r in UploadRequests(repo, files) ==>
              r.Put? && r.sha == None && EndsWith(r.path, ".md")
  {
    var rs := UploadRequests(repo, files);
    var accepted := Filter(IsMarkdownFile, files);
    forall k | 0 <= k < |rs|
      ensures EndsWith(rs[k].path, ".md")
    {
      assert accepted[k] in accepted;
      EndsWithAppend(repo.path, accepted[k].name, ".md");
    }
  }

  /** Reading and sending stops only at an unreadable file, so a readable batch and the next one send in turn. */
  lemma {:induction false} SendsConcat(repo: RepoTarget, xs: seq<LocalFile>, ys: seq<LocalFile>)
    requires forall i :: 0 <= i < |xs| ==> xs[i].text.Ok?
    ensures Sends(repo, xs + ys) == Sends(repo, xs) + Sends(repo, ys)
    decreases |xs|
  {
    if |xs| == 0 {
      assert xs + ys == ys;
    } else {
      assert (xs + ys)[0] == xs[0] && (xs + ys)[1..] == xs[1..] + ys;
      SendsConcat(repo, xs[1..], ys);
    }
  }

  /**
   * Picking files in two batches, the first of which can be read entirely,
   * sends the same requests as picking them all at once.
   */
  lemma UploadRequestsConcat(repo: RepoTarget, xs: seq<LocalFile>, ys: seq<LocalFile>)
    requires forall f :: f in xs && IsMarkdownFile(f) ==> f.text.Ok?
    ensures UploadRequests(repo, xs + ys) == UploadRequests(repo, xs) + UploadRequests(repo, ys)
  {
    var accepted := Filter(IsMarkdownFile, xs);
    forall i | 0 <= i < |accepted|
      ensures accepted[i].text.Ok?
    {
      assert accepted[i] in xs;
    }
    FilterConcat(IsMarkdownFile, xs, ys);
    SendsConcat(repo, accepted, Filter(IsMarkdownFile, ys));
  }
}

=== FILE: screens.dfy ===
/**
 * The page's view state: three screen elements shown or hidden through their
 * `hidden` class, the open document, the file list and the editor form, with
 * the user's actions as pure transitions. Every awaited call is an input: the
 * text a download returned, whether the user confirmed, what the API answered.
 */
module Screens {
  import opened Common
  import opened Strings
  import opened Seqs
  import opened Documents
  import opened Listing
  import opened Requests

  datatype Screen = Welcome | Viewer | Editor

  /** Whether each screen element carries the `hidden` class. */
  datatype Panels = Panels(welcomeHidden: bool, viewerHidden: bool, editorHidden: bool)

  /** The screens a user can see. */
  function Visible(p: Panels): set<Screen> {
    (if p.welcomeHidden then {} else {Welcome})
    + (if p.viewerHidden then {} else {Viewer})
    + (if p.editorHidden then {} else {Editor})
  }

  /** The editor's file-name field and text area. */
  datatype Form = Form(name: string, text: string)

  datatype App = App(repo: RepoTarget, files: seq<Entry>, current: Option<Doc>, panels: Panels, form: Form)

  /** The answer to a PUT or DELETE: its error message, or success followed by the answer to the list reload. */
  datatype Reply = Failed(message: string) | Succeeded(relisting: ListReply)

  /** A user action together with the outcomes of the calls it awaits. */
  datatype Event =
    | Open(entry: Entry, fetched: Outcome<string>)   // click on a file in the list
    | Edit                                           // edit button
    | Type(name: string, text: string)               // typing in the editor form
    | Cancel(fetched: Outcome<string>)               // cancel button in the editor
    | Save(reply: Reply)                             // save button in the editor
    | Remove(confirmed: bool, reply: Reply)          // delete button in the viewer
    | Upload(picked: seq<(LocalFile, Reply)>)        // files chosen in the upload dialog
    | Reload(listing: ListReply)                     // the list reload that ends loadUser or saveRepoConfig

  /** The state after an action and the write requests it sent, in order. */
  datatype Transition = Transition(next: App, sent: seq<Request>)

  /**
   * The state the page is meant to hold: exactly one screen visible, the
   * Welcome screen exactly when no document is open, and only markdown files
   * in the list.
   */
  ghost predicate Consistent(a: App) {
    && |Visible(a.panels)| == 1
    && (Welcome in Visible(a.panels) <==> a.current.None?)
    && AllMarkdown(a.files)
  }

  /**
   * The page as loaded: no open document and an empty list (the initial
   * `state`), and the Welcome screen alone visible, as the page's markup
   * starts it.
   */
  function Init(repo: RepoTarget): (a: App)
    ensures Consistent(a)
  {
    App(repo, [], None, Panels(false, true, true), Form("", ""))
  }

  /** `showWelcomeScreen`: only Welcome is visible and the open document is closed. */
  function ShowWelcome(a: App): (r: App)
    ensures Visible(r.panels) == {Welcome} && r.current == None
    ensures r.repo == a.repo && r.files == a.files && r.form == a.form
  {
    a.(panels := Panels(false, true, true), current := None)
  }

  /** `showViewerScreen`: only Viewer is visible; nothing else changes. */
  function ShowViewer(a: App): (r: App)
    ensures Visible(r.panels) == {Viewer}
    ensures r == a.(panels := r.panels)
  {
    a.(panels := Panels(true, false, true))
  }

  /** `showEditorScreen`: only Editor is visible; nothing else changes. */
  function ShowEditor(a: App): (r: App)
    ensures Visible(r.panels) == {Editor}
    ensures r == a.(panels := r.panels)
  {
    a.(panels := Panels(true, true, false))
  }

  /**
   * `viewDocument`: once the text is fetched the entry becomes the open
   * document and the Viewer is shown; a failed fetch changes nothing.
   */
  function ViewDocument(a: App, entry: Entry, fetched: Outcome<string>): (r: App)
    ensures fetched.Err? ==> r == a
    ensures fetched.Ok? ==> r.current == Some(Doc(entry, fetched.value)) && Visible(r.panels) == {Viewer}
    ensures r.files == a.files && r.form == a.form && r.repo == a.repo
  {
    match fetched
    case Ok(content) => ShowViewer(a.(current := Some(Doc(entry, content))))
    case Err(_) => a
  }

  /** `editCurrentDocument`: with a document open, fill the form from it and show the Editor; otherwise nothing. */
  function EditCurrent(a: App): (r: App)
    ensures a.current.None? ==> r == a
    ensures a.current.Some? ==>
      && Visible(r.panels) == {Editor} && r.current == a.current
      && r.form == Form(a.current.value.entry.name, a.current.value.content)
    ensures r.files == a.files && r.repo == a.repo
  {
    match a.current
    case None => a
    case Some(d) => ShowEditor(a.(form := Form(d.entry.name, d.content)))
  }

  /**
   * `cancelEdit`: with a document open it is viewed again, re-fetching its
   * text (a failed fetch leaves the Editor up); without one, Welcome.
   */
  function CancelEdit(a: App, fetched: Outcome<string>): (r: App)
    ensures a.current.None? ==> Visible(r.panels) == {Welcome} && r.current == None
    ensures a.current.Some? && fetched.Ok? ==>
      Visible(r.panels) == {Viewer} && r.current == Some(Doc(a.current.value.entry, fetched.value))
    ensures a.current.Some? && fetched.Err? ==> r == a
    ensures r.files == a.files && r.repo == a.repo && r.form == a.form
  {
    match a.current
    case Some(d) => ViewDocument(a, d.entry, fetched)
    case None => ShowWelcome(a)
  }

  /** What a successful write leads to: the list is reloaded and the Welcome screen shown. */
  function AfterWrite(a: App, relisting: ListReply): (r: App)
    ensures Visible(r.panels) == {Welcome} && r.current == None
    ensures r.files == LoadFiles(a.repo, a.files, relisting)
    ensures r.repo == a.repo && r.form == a.form
  {
    ShowWelcome(a.(files := LoadFiles(a.repo, a.files, relisting)))
  }

  /**
   * `saveDocument` on the editor form: a rejected name sends nothing and
   * changes nothing; otherwise one PUT is sent, and only its success closes
   * the document and returns to Welcome.
   */
  function SaveEditor(a: App, reply: Reply): (t: Transition)
    ensures var d := SaveDocument(a.repo, a.current, a.form.name, a.form.text);
      && (d.Rejected? ==> t == Transition(a, []))
      && (d.Send? ==> t.sent == [d.request])
    ensures t.sent == [] || reply.Failed? ==> t.next == a
    ensures t.sent != [] && reply.Succeeded? ==>
      Visible(t.next.panels) == {Welcome} && t.next.current == None
    ensures t.sent != [] && reply.Succeeded? ==> t.next == AfterWrite(a, reply.relisting)
  {
    match SaveDocument(a.repo, a.current, a.form.name, a.form.text)
    case Rejected(_) => Transition(a, [])
    case Send(request) =>
      match reply
      case Failed(_) => Transition(a, [request])
      case Succeeded(relisting) => Transition(AfterWrite(a, relisting), [request])
  }

  /**
   * `deleteCurrentDocument`: nothing without an open document or without the
   * user's confirmation; otherwise one DELETE of the open document, whose
   * success closes it and returns to Welcome.
   */
  function DeleteCurrent(a: App, confirmed: bool, reply: Reply): (t: Transition)
    ensures a.current.None? || !confirmed ==> t == Transition(a, [])
    ensures a.current.Some? && confirmed ==>
      t.sent == [Delete(a.repo.owner, a.repo.name, a.current.value.entry.path,
                        "Delete " + a.current.value.entry.name, a.current.value.entry.sha, Branch)]
    ensures reply.Failed? ==> t.next == a
    ensures a.current.Some? && confirmed && reply.Succeeded? ==>
      Visible(t.next.panels) == {Welcome} && t.next.current == None
    ensures t.sent != [] && reply.Succeeded? ==> t.next == AfterWrite(a, reply.relisting)
  {
    match a.current
    case None => Transition(a, [])
    case Some(d) =>
      match DeleteFile(a.repo, d.entry, confirmed)
      case Rejected(_) => Transition(a, [])
      case Send(request) =>
        match reply
        case Failed(_) => Transition(a, [request])
        case Succeeded(relisting) => Transition(AfterWrite(a, relisting), [request])
  }

  /** The files of an upload dialog, without the replies. */
  function Picked(picked: seq<(LocalFile, Reply)>): (fs: seq<LocalFile>)
    ensures |fs| == |picked| && forall i :: 0 <= i < |fs| ==> fs[i] == picked[i].0
  {
    seq(|picked|, i requires 0 <= i < |picked| => picked[i].0)
  }

  /** The page after one upload PUT: a success reloads the list, a failure changes nothing. */
  function AfterUploadWrite(a: App, reply: Reply): (r: App)
    ensures reply.Failed? ==> r == a
    ensures reply.Succeeded? ==> r == a.(files := LoadFiles(a.repo, a.files, reply.relisting))
  {
    match reply
    case Failed(_) => a
    case Succeeded(relisting) => a.(files := LoadFiles(a.repo, a.files, relisting))
  }

  /**
   * `handleFileUpload`: the requests are those of `UploadRequests` (see
   * `UploadFilesSends`); each successful one reloads the list, and a file
   * whose text cannot be read ends the upload. The screens, the open document
   * and the form are left alone.
   */
  function UploadFiles(a: App, picked: seq<(LocalFile, Reply)>): (t: Transition)
    ensures t.next == a.(files := t.next.files)
    ensures AllMarkdown(a.files) ==> AllMarkdown(t.next.files)
    ensures (forall i | 0 <= i < |picked| :: picked[i].1.Failed?) ==> t.next == a
    ensures t.sent == [] ==> t.next == a
    decreases |picked|
  {
    if |picked| == 0 then
      Transition(a, [])
    else
      var f := picked[0].0;
      if !IsMarkdownFile(f) then
        UploadFiles(a, picked[1..])
      else if f.text.Err? then
        Transition(a, [])
      else
        var rest := UploadFiles(AfterUploadWrite(a, picked[0].1), picked[1..]);
        Transition(rest.next, [UploadPut(a.repo, f)] + rest.sent)
  }

  /** An upload sends exactly the requests of `UploadRequests` for the picked files. */
  lemma {:induction false} UploadFilesSends(a: App, picked: seq<(LocalFile, Reply)>)
    ensures UploadFiles(a, picked).sent == UploadRequests(a.repo, Picked(picked))
    decreases |picked|
  {
    if |picked| > 0 {
      var f := picked[0].0;
      assert Picked(picked)[0] == f && Picked(picked)[1..] == Picked(picked[1..]);
      UploadRequestsFirst(a.repo, Picked(picked));
      if !IsMarkdownFile(f) {
        UploadFilesSends(a, picked[1..]);
      } else if f.text.Ok? {
        UploadFilesSends(AfterUploadWrite(a, picked[0].1), picked[1..]);
      }
    }
  }

  /**
   * One user action, dispatched to the handler its control is wired to. No
   * action changes the repository settings, and only a save, a delete and an
   * upload send write requests.
   */
  function Step(a: App, ev: Event): (t: Transition)
    ensures t.next.repo == a.repo
    ensures !(ev.Save? || ev.Remove? || ev.Upload?) ==> t.sent == []
  {
    match ev
    case Open(entry, fetched) => Transition(ViewDocument(a, entry, fetched), [])
    case Edit => Transition(EditCurrent(a), [])
    case Type(name, text) => Transition(a.(form := Form(name, text)), [])
    case Cancel(fetched) => Transition(CancelEdit(a, fetched), [])
    case Save(reply) => SaveEditor(a, reply)
    case Remove(confirmed, reply) => DeleteCurrent(a, confirmed, reply)
    case Upload(picked) => UploadFiles(a, picked)
    case Reload(listing) => Transition(a.(files := LoadFiles(a.repo, a.files, listing)), [])
  }

  /** Actions applied one after another by `step`, collecting the requests sent. */
  function Fold(step: (App, Event) -> Transition, a: App, evs: seq<Event>): (t: Transition)
    decreases |evs|
  {
    if |evs| == 0 then
      Transition(a, [])
    else
      var first := step(a, evs[0]);
      var rest := Fold(step, first.next, evs[1..]);
      Transition(rest.next, first.sent + rest.sent)
  }

  /** A sequence of user actions, and every write request they sent, in order. */
  function Run(a: App, evs: seq<Event>): (t: Transition)
  {
    Fold(Step, a, evs)
  }

  /** Running a first action and then the rest. */
  lemma RunCons(a: App, ev: Event, evs: seq<Event>)
    ensures var first := Step(a, ev);
      var rest := Run(first.next, evs);
      Run(a, [ev] + evs) == Transition(rest.next, first.sent + rest.sent)
  {
    assert ([ev] + evs)[1..] == evs;
  }

  /** Each handler on its own keeps the page consistent. */
  lemma SavePreservesConsistent(a: App, reply: Reply)
    requires Consistent(a)
    ensures Consistent(SaveEditor(a, reply).next)
  {
  }

  lemma DeletePreservesConsistent(a: App, confirmed: bool, reply: Reply)
    requires Consistent(a)
    ensures Consistent(DeleteCurrent(a, confirmed, reply).next)
  {
  }

  lemma UploadPreservesConsistent(a: App, picked: seq<(LocalFile, Reply)>)
    requires Consistent(a)
    ensures Consistent(UploadFiles(a, picked).next)
  {
  }

  lemma ViewPreservesConsistent(a: App, entry: Entry, fetched: Outcome<string>)
    requires Consistent(a)
    ensures Consistent(ViewDocument(a, entry, fetched))
  {
  }

  lemma EditPreservesConsistent(a: App)
    requires Consistent(a)
    ensures Consistent(EditCurrent(a))
  {
  }

  lemma CancelPreservesConsistent(a: App, fetched: Outcome<string>)
    requires Consistent(a)
    ensures Consistent(CancelEdit(a, fetched))
  {
  }

  /** Every action keeps the page consistent. */
  lemma StepPreservesConsistent(a: App, ev: Event)
    requires Consistent(a)
    ensures Consistent(Step(a, ev).next)
  {
    match ev
    case Open(e, fetched) =>
      ViewPreservesConsistent(a, e, fetched);
      assert Step(a, ev) == Transition(ViewDocument(a, e, fetched), []);
    case Edit =>
      EditPreservesConsistent(a);
      assert Step(a, ev) == Transition(EditCurrent(a), []);
    case Type(name, text) =>
      assert Step(a, ev) == Transition(a.(form := Form(name, text)), []);
    case Cancel(fetched) =>
      CancelPreservesConsistent(a, fetched);
      assert Step(a, ev) == Transition(CancelEdit(a, fetched), []);
    case Save(reply) =>
      SavePreservesConsistent(a, reply);
    case Remove(confirmed, reply) =>
      DeletePreservesConsistent(a, confirmed, reply);
    case Upload(picked) =>
      UploadPreservesConsistent(a, picked);
    case Reload(listing) =>
      assert Step(a, ev) == Transition(a.(files := LoadFiles(a.repo, a.files, listing)), []);
  }

  /** Any sequence of actions keeps the page consistent. */
  lemma {:induction false} RunPreservesConsistent(a: App, evs: seq<Event>)
    requires Consistent(a)
    ensures Consistent(Run(a, evs).next)
    decreases |evs|
  {
    if |evs| > 0 {
      StepPreservesConsistent(a, evs[0]);
      RunPreservesConsistent(Step(a, evs[0]).next, evs[1..]);
    }
  }

  /** The Editor only ever comes up through the edit button, and only with a document open. */
  lemma EditorOnlyThroughEdit(a: App, ev: Event)
    requires Editor !in Visible(a.panels)
    requires Editor in Visible(Step(a, ev).next.panels)
    ensures ev == Edit && a.current.Some?
  {
  }

  /**
   * The Viewer only ever comes up after a document's text was fetched, either
   * on opening it from the list or on cancelling an edit, and then that
   * document is open.
   */
  lemma ViewerOnlyAfterFetch(a: App, ev: Event)
    requires Viewer !in Visible(a.panels)
    requires Viewer in Visible(Step(a, ev).next.panels)
    ensures || (ev.Open? && ev.fetched.Ok?)
            || (ev.Cancel? && ev.fetched.Ok? && a.current.Some?)
    ensures Step(a, ev).next.current.Some?
  {
  }

  /** A write the page can send: always on the main branch, and a PUT only to a ".md" path. */
  ghost predicate AllowedWrite(r: Request) {
    r.branch == Branch && (r.Put? ==> EndsWith(r.path, ".md"))
  }

  /** Each writing handler on its own sends only allowed writes. */
  lemma SaveWritesAllowed(a: App, reply: Reply)
    ensures forall r :: r in SaveEditor(a, reply).sent ==> AllowedWrite(r)
  {
  }

  lemma DeleteWritesAllowed(a: App, confirmed: bool, reply: Reply)
    ensures forall r :: r in DeleteCurrent(a, confirmed, reply).sent ==> AllowedWrite(r)
  {
  }

  lemma UploadWritesAllowed(a: App, picked: seq<(LocalFile, Reply)>)
    ensures forall r :: r in UploadFiles(a, picked).sent ==> AllowedWrite(r)
  {
    UploadFilesSends(a, picked);
    UploadWritesMarkdown(a.repo, Picked(picked));
  }

  lemma StepWritesAllowed(a: App, ev: Event)
    ensures forall r :: r in Step(a, ev).sent ==> AllowedWrite(r)
  {
    match ev
    case Save(reply) =>
      SaveWritesAllowed(a, reply);
    case Remove(confirmed, reply) =>
      DeleteWritesAllowed(a, confirmed, reply);
    case Upload(picked) =>
      UploadWritesAllowed(a, picked);
    case _ =>
      assert Step(a, ev).sent == [];
  }

  /** Whatever the user does, only markdown files on the main branch are written. */
  lemma {:induction false} RunWritesAllowed(a: App, evs: seq<Event>)
    ensures forall r :: r in Run(a, evs).sent ==> AllowedWrite(r)
    decreases |evs|
  {
    if |evs| > 0 {
      StepWritesAllowed(a, evs[0]);
      RunWritesAllowed(Step(a, evs[0]).next, evs[1..]);
    }
  }

  /** Saving an open document under its own, already trimmed ".md" name is an update with its hash. */
  lemma UnrenamedSaveIsUpdate(repo: RepoTarget, d: Doc, text: string)
    requires Trim(d.entry.name) == d.entry.name && IsMarkdownName(d.entry.name) && d.entry.sha != ""
    ensures SaveDocument(repo, Some(d), d.entry.name, text)
         == Send(Put(repo.owner, repo.name, repo.path + d.entry.name, "Update " + d.entry.name, text,
                     Branch, Some(d.entry.sha)))
  {
  }

  /** Opening a document, editing it and typing new text leaves it open with its own name in the form. */
  lemma OpenEditType(a: App, e: Entry, content: string, text: string)
    ensures var t := Run(a, [Open(e, Ok(content)), Edit, Type(e.name, text)]);
      && t.sent == [] && t.next.repo == a.repo
      && t.next.current == Some(Doc(e, content)) && t.next.form == Form(e.name, text)
  {
    var a1 := ViewDocument(a, e, Ok(content));
    var a2 := EditCurrent(a1);
    assert Step(a, Open(e, Ok(content))) == Transition(a1, []);
    assert Step(a1, Edit) == Transition(a2, []);
    assert Step(a2, Type(e.name, text)) == Transition(a2.(form := Form(e.name, text)), []);
    RunCons(a2, Type(e.name, text), []);
    RunCons(a1, Edit, [Type(e.name, text)]);
    RunCons(a, Open(e, Ok(content)), [Edit, Type(e.name, text)]);
    assert [Type(e.name, text)] == [Type(e.name, text)] + [];
    assert [Edit, Type(e.name, text)] == [Edit] + [Type(e.name, text)];
    assert [Open(e, Ok(content)), Edit, Type(e.name, text)] == [Open(e, Ok(content))] + [Edit, Type(e.name, text)];
  }

  /** The save of the scenario below, on its own. */
  lemma SaveUnrenamed(a: App, e: Entry, content: string, text: string, relisting: ListReply)
    requires Trim(e.name) == e.name && IsMarkdownName(e.name) && e.sha != ""
    requires a.current == Some(Doc(e, content)) && a.form == Form(e.name, text)
    ensures var t := Run(a, [Save(Succeeded(relisting))]);
      && t.sent == [Put(a.repo.owner, a.repo.name, a.repo.path + e.name, "Update " + e.name, text,
                        Branch, Some(e.sha))]
      && Visible(t.next.panels) == {Welcome} && t.next.current == None
  {
    var d := SaveDocument(a.repo, a.current, a.form.name, a.form.text);
    UnrenamedSaveIsUpdate(a.repo, Doc(e, content), text);
    assert d.request == Put(a.repo.owner, a.repo.name, a.repo.path + e.name, "Update " + e.name, text,
                            Branch, Some(e.sha));
    assert SaveEditor(a, Succeeded(relisting)).sent == [d.request];
    assert Step(a, Save(Succeeded(relisting))) == SaveEditor(a, Succeeded(relisting));
    RunCons(a, Save(Succeeded(relisting)), []);
    assert [Save(Succeeded(relisting))] == [Save(Succeeded(relisting))] + [];
  }

  /**
   * On a consistent page the Editor is only up with a document open, so a save
   * pressed there is always an update: the "Create" request is never sent.
   */
  lemma EditorSaveIsUpdate(a: App, reply: Reply)
    requires Consistent(a) && Editor in Visible(a.panels)
    ensures forall r :: r in SaveEditor(a, reply).sent ==>
              r.Put? && r.message == "Update " + Trim(a.form.name)
  {
    var others := Visible(a.panels) - {Editor};
    assert |others| == 0;
    assert Welcome !in others;
  }

  /** Folding one sequence of actions after another. */
  lemma {:induction false} FoldAppend(step: (App, Event) -> Transition, a: App, xs: seq<Event>, ys: seq<Event>)
    ensures var first := Fold(step, a, xs);
      var rest := Fold(step, first.next, ys);
      Fold(step, a, xs + ys) == Transition(rest.next, first.sent + rest.sent)
    decreases |xs|
  {
    if |xs| == 0 {
      assert xs + ys == ys;
    } else {
      assert (xs + ys)[1..] == xs[1..] + ys;
      FoldAppend(step, step(a, xs[0]).next, xs[1..], ys);
    }
  }

  /** Running one sequence of actions after another. */
  lemma RunAppend(a: App, xs: seq<Event>, ys: seq<Event>)
    ensures var first := Run(a, xs);
      var rest := Run(first.next, ys);
      Run(a, xs + ys) == Transition(rest.next, first.sent + rest.sent)
  {
    FoldAppend(Step, a, xs, ys);
  }

  /**
   * Opening a document, editing its text and saving it under the same name
   * sends one update carrying the hash the document was read with, and ends on
   * the Welcome screen.
   */
  lemma OpenEditSaveIsUpdate(a: App, e: Entry, content: string, text: string,
                             relisting: ListReply)
    requires Trim(e.name) == e.name && IsMarkdownName(e.name) && e.sha != ""
    ensures var t := Run(a, [Open(e, Ok(content)), Edit, Type(e.name, text), Save(Succeeded(relisting))]);
      && t.sent == [Put(a.repo.owner, a.repo.name, a.repo.path + e.name, "Update " + e.name, text,
                        Branch, Some(e.sha))]
      && Visible(t.next.panels) == {Welcome} && t.next.current == None
  {
    var xs := [Open(e, Ok(content)), Edit, Type(e.name, text)];
    var ys := [Save(Succeeded(relisting))];
    OpenEditType(a, e, content, text);
    SaveUnrenamed(Run(a, xs).next, e, content, text, relisting);
    RunAppend(a, xs, ys);
    assert xs + ys == [Open(e, Ok(content)), Edit, Type(e.name, text), Save(Succeeded(relisting))];
  }

  /**
   * Deleting the open document sends a DELETE of its path with its hash and
   * returns to Welcome; once the reloaded listing no longer holds the entry,
   * neither does the file list.
   */
  lemma OpenDeleteReturnsToWelcome(a: App, e: Entry, content: string, relisting: ListReply)
    ensures var t := Run(a, [Open(e, Ok(content)), Remove(true, Succeeded(relisting))]);
      && t.sent == [Delete(a.repo.owner, a.repo.name, e.path, "Delete " + e.name, e.sha, Branch)]
      && Visible(t.next.panels) == {Welcome} && t.next.current == None
      && (Configured(a.repo) && relisting.Listed? && e !in relisting.contents ==> e !in t.next.files)
  {
    var a1 := ViewDocument(a, e, Ok(content));
    assert Step(a, Open(e, Ok(content))) == Transition(a1, []);
    assert Step(a1, Remove(true, Succeeded(relisting))) == DeleteCurrent(a1, true, Succeeded(relisting));
    RunCons(a1, Remove(true, Succeeded(relisting)), []);
    assert [Remove(true, Succeeded(relisting))] == [Remove(true, Succeeded(relisting))] + [];
    assert [Open(e, Ok(content)), Remove(true, Succeeded(relisting))]
        == [Open(e, Ok(content))] + [Remove(true, Succeeded(relisting))];
    RunCons(a, Open(e, Ok(content)), [Remove(true, Succeeded(relisting))]);
  }

  /**
   * The page reloads through the status-based `LoadFiles`. Deleting the last
   * document of a directory, after which the listing answers 404 "Not Found",
   * empties the list here, while `loadFiles` as written keeps the deleted entry.
   */
  lemma DeleteThenNotFoundAsWritten(a: App)
    requires Configured(a.repo) && a.current.Some? && a.files != []
    ensures DeleteCurrent(a, true, Succeeded(ListFailed(Some(404), "Not Found"))).next.files == []
    ensures LoadFilesAsWritten(a.repo, a.files, ListFailed(Some(404), "Not Found")) == a.files
  {
    NotFoundIsMissedAsWritten(a.repo, a.files);
  }

  /**
   * Uploading one readable ".md" file whose PUT succeeds sends that one create
   * and reloads the list: it then holds the ".md" entries of the new listing,
   * and nothing else on the page changes.
   */
  lemma UploadOneReloadsList(a: App, f: LocalFile, contents: seq<Entry>)
    requires Configured(a.repo) && IsMarkdownFile(f) && f.text.Ok?
    ensures var t := Step(a, Upload([(f, Succeeded(Listed(contents)))]));
      && t.sent == [UploadPut(a.repo, f)]
      && t.next == a.(files := MarkdownEntries(contents))
      && forall e :: e in contents && IsMarkdownName(e.name) ==> e in t.next.files
  {
    var picked := [(f, Succeeded(Listed(contents)))];
    var a' := a.(files := LoadFiles(a.repo, a.files, Listed(contents)));
    assert picked[1..] == [];
    assert UploadFiles(a', []) == Transition(a', []);
    assert UploadFiles(a, picked) == Transition(a', [UploadPut(a.repo, f)]);
    assert Step(a, Upload(picked)) == UploadFiles(a, picked);
  }

  /** The upload past its first picked file, when that file does not end it. */
  lemma UploadFilesStep(a: App, picked: seq<(LocalFile, Reply)>)
    requires |picked| > 0 && (IsMarkdownFile(picked[0].0) ==> picked[0].0.text.Ok?)
    ensures UploadFiles(a, picked).next
         == UploadFiles(if IsMarkdownFile(picked[0].0) then AfterUploadWrite(a, picked[0].1) else a, picked[1..]).next
  {
  }

  /**
   * Each successful PUT of an upload reloads the list, so when every picked
   * ".md" file can be read and the last picked file is a ".md" file whose
   * write succeeded, the list ends as that last reload left it.
   */
  lemma {:induction false} UploadEndsWithLastReload(a: App, picked: seq<(LocalFile, Reply)>, contents: seq<Entry>)
    requires Configured(a.repo) && |picked| > 0
    requires ReadableUpload(picked)
    requires IsMarkdownFile(picked[|picked| - 1].0)
    requires picked[|picked| - 1].1 == Succeeded(Listed(contents))
    ensures UploadFiles(a, picked).next.files == MarkdownEntries(contents)
    decreases |picked|, 1
  {
    if |picked| == 1 {
      UploadFilesStep(a, picked);
      UploadLastFile(a, picked, contents);
    } else {
      UploadPastFirst(a, picked, contents);
    }
  }

  /** The inductive step: the first picked file is handled, the rest ends as its last reload left it. */
  lemma {:induction false} UploadPastFirst(a: App, picked: seq<(LocalFile, Reply)>, contents: seq<Entry>)
    requires Configured(a.repo) && |picked| > 1
    requires ReadableUpload(picked)
    requires IsMarkdownFile(picked[|picked| - 1].0)
    requires picked[|picked| - 1].1 == Succeeded(Listed(contents))
    ensures UploadFiles(a, picked).next.files == MarkdownEntries(contents)
    decreases |picked|, 0
  {
    var a' := if IsMarkdownFile(picked[0].0) then AfterUploadWrite(a, picked[0].1) else a;
    UploadFilesStep(a, picked);
    ReadableUploadRest(picked);
    UploadEndsWithLastReload(a', picked[1..], contents);
  }

  /** Every picked ".md" file can be read. */
  ghost predicate ReadableUpload(picked: seq<(LocalFile, Reply)>) {
    forall i :: 0 <= i < |picked| && IsMarkdownFile(picked[i].0) ==> picked[i].0.text.Ok?
  }

  /** Past its first file, an upload whose ".md" files can be read still has readable ".md" files and the same last file. */
  lemma ReadableUploadRest(picked: seq<(LocalFile, Reply)>)
    requires |picked| > 1 && ReadableUpload(picked)
    ensures ReadableUpload(picked[1..]) && picked[1..][|picked| - 2] == picked[|picked| - 1]
  {
    var rest := picked[1..];
    forall i | 0 <= i < |rest| && IsMarkdownFile(rest[i].0)
      ensures rest[i].0.text.Ok?
    {
      assert rest[i] == picked[i + 1];
    }
  }

  /** The reload after the last picked file's successful PUT decides the list. */
  lemma UploadLastFile(a: App, picked: seq<(LocalFile, Reply)>, contents: seq<Entry>)
    requires Configured(a.repo) && |picked| == 1 && IsMarkdownFile(picked[0].0)
    requires picked[0].1 == Succeeded(Listed(contents))
    ensures UploadFiles(AfterUploadWrite(a, picked[0].1), picked[1..]).next.files == MarkdownEntries(contents)
  {
    assert picked[1..] == [];
  }
}

=== FILE: seqs.dfy ===
/** `Array.prototype.filter` and the order-preserving subsequence relation that specifies it. */
module Seqs {

  /** `r` is obtained from `xs` by deleting some elements, keeping the rest in order. */
  ghost predicate IsSubsequence<T>(r: seq<T>, xs: seq<T>)
    decreases |xs|
  {
    || |r| == 0
    || (&& |xs| > 0
        && ((r[0] == xs[0] && IsSubsequence(r[1..], xs[1..])) || IsSubsequence(r, xs[1..])))
  }

  /**
   * `xs.filter(p)`: an order-preserving subsequence of `xs` that keeps every
   * occurrence of every element satisfying `p` and nothing else.
   */
  function Filter<T(!new)>(p: T -> bool, xs: seq<T>): (r: seq<T>)
    ensures IsSubsequence(r, xs)
    ensures forall x :: x in r <==> x in xs && p(x)
    ensures forall x :: multiset(r)[x] == if p(x) then multiset(xs)[x] else 0
  {
    if |xs| == 0 then
      []
    else
      var rest := Filter(p, xs[1..]);
      assert xs == [xs[0]] + xs[1..];
      if p(xs[0]) then [xs[0]] + rest else rest
  }

  /** The same selection computed without carrying the specification along, for equational proofs. */
  function Keep<T>(p: T -> bool, xs: seq<T>): seq<T>
    decreases |xs|
  {
    if |xs| == 0 then [] else (if p(xs[0]) then [xs[0]] else []) + Keep(p, xs[1..])
  }

  /** `Filter` and `Keep` select the same elements. */
  lemma {:induction false} FilterIsKeep<T(!new)>(p: T -> bool, xs: seq<T>)
    ensures Filter(p, xs) == Keep(p, xs)
    decreases |xs|
  {
    if |xs| > 0 {
      FilterIsKeep(p, xs[1..]);
    }
  }

  /** `Keep` distributes over concatenation. */
  lemma {:induction false} KeepConcat<T>(p: T -> bool, xs: seq<T>, ys: seq<T>)
    ensures Keep(p, xs + ys) == Keep(p, xs) + Keep(p, ys)
    decreases |xs|
  {
    if |xs| == 0 {
      assert xs + ys == ys;
    } else {
      assert (xs + ys)[0] == xs[0] && (xs + ys)[1..] == xs[1..] + ys;
      KeepConcat(p, xs[1..], ys);
    }
  }

  /** Filtering distributes over concatenation. */
  lemma FilterConcat<T(!new)>(p: T -> bool, xs: seq<T>, ys: seq<T>)
    ensures Filter(p, xs + ys) == Filter(p, xs) + Filter(p, ys)
  {
    FilterIsKeep(p, xs + ys);
    FilterIsKeep(p, xs);
    FilterIsKeep(p, ys);
    KeepConcat(p, xs, ys);
  }

  /** A filter that rejects nothing returns its input unchanged. */
  lemma {:induction false} FilterKeepsAll<T(!new)>(p: T -> bool, xs: seq<T>)
    requires forall i :: 0 <= i < |xs| ==> p(xs[i])
    ensures Filter(p, xs) == xs
    decreases |xs|
  {
    if |xs| > 0 {
      FilterKeepsAll(p, xs[1..]);
    }
  }

  /** Filters that agree on every element of `xs` select the same elements of it. */
  lemma {:induction false} FilterAgrees<T(!new)>(p: T -> bool, q: T -> bool, xs: seq<T>)
    requires forall i :: 0 <= i < |xs| ==> p(xs[i]) == q(xs[i])
    ensures Filter(p, xs) == Filter(q, xs)
    decreases |xs|
  {
    if |xs| > 0 {
      FilterAgrees(p, q, xs[1..]);
    }
  }
}

=== FILE: statetoken.dfy ===
/**
 * The OAuth `state` token of `generateState`: sixteen random bytes, each
 * written as `b.toString(16).padStart(2, '0')`, joined into one string. The
 * random bytes are an input here.
 */
module StateToken {
  import opened Common

  type Byte = x: int | 0 <= x < 256

  /** The digit `Number.prototype.toString(16)` writes for a value below 16: 0-9, then a-f in lower case. */
  function HexDigit(v: nat): (c: char)
    requires v < 16
    ensures IsHexDigit(c)
  {
    if v < 10 then ('0' as int + v) as char else ('a' as int + v - 10) as char
  }

  /** A character `toString(16)` can produce: 0-9 or a-f. */
  predicate IsHexDigit(c: char) {
    '0' <= c <= '9' || 'a' <= c <= 'f'
  }

  /** The number of random bytes in a token. */
  const TokenBytes: nat := 16

  /** `n.toString(16)` for a non-negative integer: digits, most significant first, no leading zero. */
  function Radix16(n: nat): (s: string)
    ensures |s| >= 1 && (n < 16 <==> |s| == 1)
    ensures s[0] != '0' || n == 0
    decreases n
  {
    if n < 16 then [HexDigit(n)] else Radix16(n / 16) + [HexDigit(n % 16)]
  }

  /** `s.padStart(width, fill)` with a one-character fill. */
  function PadStart(s: string, width: nat, fill: char): (r: string)
    ensures |r| == if |s| < width then width else |s|
    ensures r[|r| - |s|..] == s
    ensures forall i :: 0 <= i < |r| - |s| ==> r[i] == fill
  {
    if |s| >= width then s else seq(width - |s|, _ => fill) + s
  }

  /**
   * The two characters one byte contributes: high nibble first, then low
   * nibble, so a byte below 16 starts with '0'.
   */
  function ByteHex(b: Byte): (s: string)
    ensures |s| == 2 && IsHexDigit(s[0]) && IsHexDigit(s[1])
    ensures b < 16 ==> s[0] == '0'
  {
    [HexDigit(b / 16), HexDigit(b % 16)]
  }

  /** The pair of digits is exactly `b.toString(16).padStart(2, '0')`. */
  lemma ByteHexIsPaddedRadix16(b: Byte)
    ensures ByteHex(b) == PadStart(Radix16(b), 2, '0')
  {
    if b < 16 {
      assert Radix16(b) == [HexDigit(b)];
    } else {
      assert Radix16(b) == Radix16(b / 16) + [HexDigit(b % 16)] == [HexDigit(b / 16), HexDigit(b % 16)];
    }
  }

  /** `.map(ByteHex).join('')` over a byte sequence. */
  function Encode(bytes: seq<Byte>): (s: string)
    ensures |s| == 2 * |bytes|
  {
    if |bytes| == 0 then "" else ByteHex(bytes[0]) + Encode(bytes[1..])
  }

  /** `generateState`, with the bytes `crypto.getRandomValues` would supply passed in. */
  function GenerateState(random: seq<Byte>): (token: string)
    requires |random| == TokenBytes
    ensures |token| == 32
    ensures forall i :: 0 <= i < |token| ==> IsHexDigit(token[i])
  {
    EncodeIsHex(random);
    Encode(random)
  }

  /** Every character of an encoding is a lower-case hex digit. */
  lemma {:induction false} EncodeIsHex(bytes: seq<Byte>)
    ensures forall i :: 0 <= i < |Encode(bytes)| ==> IsHexDigit(Encode(bytes)[i])
    decreases |bytes|
  {
    if |bytes| > 0 {
      var s := Encode(bytes);
      var h := ByteHex(bytes[0]);
      var t := Encode(bytes[1..]);
      EncodeIsHex(bytes[1..]);
      assert s == h + t;
      forall i | 0 <= i < |s|
        ensures IsHexDigit(s[i])
      {
        if i >= 2 {
          assert s[i] == t[i - 2];
        }
      }
    }
  }

  /** Byte `i` of the input is written at positions `2i` and `2i + 1` of the output. */
  lemma {:induction false} EncodeAt(bytes: seq<Byte>, i: nat)
    requires i < |bytes|
    ensures Encode(bytes)[2 * i..2 * i + 2] == ByteHex(bytes[i])
    decreases i
  {
    if i > 0 {
      EncodeAt(bytes[1..], i - 1);
      assert Encode(bytes)[2 * i..2 * i + 2] == Encode(bytes[1..])[2 * (i - 1)..2 * (i - 1) + 2];
    }
  }

  /** Encoding distributes over concatenation. */
  lemma {:induction false} EncodeConcat(xs: seq<Byte>, ys: seq<Byte>)
    ensures Encode(xs + ys) == Encode(xs) + Encode(ys)
    decreases |xs|
  {
    if |xs| == 0 {
      assert xs + ys == ys;
    } else {
      assert (xs + ys)[1..] == xs[1..] + ys;
      EncodeConcat(xs[1..], ys);
    }
  }

  /** The value of a lower-case hexadecimal digit. */
  function DigitValue(c: char): (v: Option<nat>)
    ensures v.Some? <==> IsHexDigit(c)
    ensures v.Some? ==> v.value < 16 && HexDigit(v.value) == c
  {
    if '0' <= c <= '9' then Some(c as int - '0' as int)
    else if 'a' <= c <= 'f' then Some(c as int - 'a' as int + 10)
    else None
  }

  /** Reads consecutive pairs of lower-case hex digits back into bytes; anything else is refused. */
  function Decode(s: string): (r: Option<seq<Byte>>)
    ensures r.Some? <==> |s| % 2 == 0 && forall i :: 0 <= i < |s| ==> IsHexDigit(s[i])
    ensures r.Some? ==> Encode(r.value) == s
    decreases |s|
  {
    if |s| == 0 then
      Some([])
    else if |s| == 1 then
      None
    else
      var hi := DigitValue(s[0]);
      var lo := DigitValue(s[1]);
      var rest := Decode(s[2..]);
      if hi.None? || lo.None? || rest.None? then
        assert !IsHexDigit(s[0]) || !IsHexDigit(s[1]) || |s| % 2 == 1
          || exists i :: 2 <= i < |s| && !IsHexDigit(s[i]) by {
          if IsHexDigit(s[0]) && IsHexDigit(s[1]) && |s| % 2 == 0 {
            var j :| 0 <= j < |s[2..]| && !IsHexDigit(s[2..][j]);
            assert !IsHexDigit(s[j + 2]);
          }
        }
        None
      else
        var b: Byte := hi.value * 16 + lo.value;
        assert ByteHex(b) == s[..2];
        assert Encode([b] + rest.value) == ByteHex(b) + Encode(rest.value);
        assert s == s[..2] + s[2..];
        Some([b] + rest.value)
  }

  /** Decoding an encoding gives back the bytes. */
  lemma {:induction false} DecodeEncode(bytes: seq<Byte>)
    ensures Decode(Encode(bytes)) == Some(bytes)
    decreases |bytes|
  {
    if |bytes| > 0 {
      var s := Encode(bytes);
      DecodeEncode(bytes[1..]);
      assert s[2..] == Encode(bytes[1..]);
      assert [bytes[0]] + bytes[1..] == bytes;
    }
  }

  /** Different byte sequences give different tokens. */
  lemma EncodeInjective(xs: seq<Byte>, ys: seq<Byte>)
    requires Encode(xs) == Encode(ys)
    ensures xs == ys
  {
    DecodeEncode(xs);
    DecodeEncode(ys);
  }
}

=== FILE: strings.dfy ===
/**
 * The few string operations the application uses: `endsWith`, `trim`,
 * `toLowerCase` and `includes`. Characters are Unicode scalar values; every
 * literal the application compares against is ASCII, so code units and scalar
 * values agree on all of them.
 */
module Strings {

  /** `s.endsWith(suffix)`. */
  predicate EndsWith(s: string, suffix: string) {
    |suffix| <= |s| && s[|s| - |suffix|..] == suffix
  }

  /** A suffix of the last part of a concatenation is a suffix of the whole. */
  lemma EndsWithAppend(prefix: string, s: string, suffix: string)
    requires EndsWith(s, suffix)
    ensures EndsWith(prefix + s, suffix)
  {
    assert (prefix + s)[|prefix + s| - |suffix|..] == s[|s| - |suffix|..];
  }

  /** The characters `String.prototype.trim` removes: ECMAScript WhiteSpace and LineTerminator. */
  predicate IsWhitespace(c: char) {
    || c == '\t' || c == '\n' || c == '\U{B}' || c == '\U{C}' || c == '\r' || c == ' '
    || c == '\U{A0}' || c == '\U{1680}' || ('\U{2000}' <= c <= '\U{200A}')
    || c == '\U{2028}' || c == '\U{2029}' || c == '\U{202F}' || c == '\U{205F}'
    || c == '\U{3000}' || c == '\U{FEFF}'
  }

  /** `r` sits at position `i` of `s` with nothing but whitespace before and after it. */
  ghost predicate PaddedBy(s: string, i: nat, r: string) {
    && i + |r| <= |s| && s[i..i + |r|] == r
    && (forall k :: 0 <= k < i ==> IsWhitespace(s[k]))
    && (forall k :: i + |r| <= k < |s| ==> IsWhitespace(s[k]))
  }

  /** The first position at or after `i` that does not hold whitespace (or the end). */
  function SkipLeading(s: string, i: nat): (j: nat)
    requires i <= |s|
    ensures i <= j <= |s|
    ensures forall k :: i <= k < j ==> IsWhitespace(s[k])
    ensures j == |s| || !IsWhitespace(s[j])
    decreases |s| - i
  {
    if i < |s| && IsWhitespace(s[i]) then SkipLeading(s, i + 1) else i
  }

  /** The end of `s[lo..j]` once its trailing whitespace is dropped. */
  function SkipTrailing(s: string, lo: nat, j: nat): (e: nat)
    requires lo <= j <= |s|
    ensures lo <= e <= j
    ensures forall k :: e <= k < j ==> IsWhitespace(s[k])
    ensures e == lo || !IsWhitespace(s[e - 1])
    decreases j - lo
  {
    if lo < j && IsWhitespace(s[j - 1]) then SkipTrailing(s, lo, j - 1) else j
  }

  /**
   * `s.trim()`: the slice of `s` that has only whitespace around it and
   * neither starts nor ends with whitespace.
   */
  function Trim(s: string): (r: string)
    ensures exists i: nat :: PaddedBy(s, i, r)
    ensures r == [] || (!IsWhitespace(r[0]) && !IsWhitespace(r[|r| - 1]))
  {
    var i := SkipLeading(s, 0);
    var j := SkipTrailing(s, i, |s|);
    assert PaddedBy(s, i, s[i..j]);
    s[i..j]
  }

  /** `trim` of an already trimmed string changes nothing. */
  lemma TrimIdempotent(s: string)
    ensures Trim(Trim(s)) == Trim(s)
  {
    var r := Trim(s);
    assert SkipLeading(r, 0) == 0;
    assert SkipTrailing(r, 0, |r|) == |r|;
  }

  /** `toLowerCase` restricted to ASCII letters. */
  function LowerChar(c: char): char {
    if 'A' <= c <= 'Z' then (c as int + 32) as char else c
  }

  /**
   * `s.toLowerCase()` on ASCII: each letter A to Z becomes its lower-case
   * counterpart, no upper-case letter survives and every other character is kept.
   */
  function Lower(s: string): (r: string)
    ensures |r| == |s|
    ensures forall i :: 0 <= i < |r| ==> !('A' <= r[i] <= 'Z')
    ensures forall i :: 0 <= i < |s| && !('A' <= s[i] <= 'Z') ==> r[i] == s[i]
    ensures forall i :: 0 <= i < |s| && 'A' <= s[i] <= 'Z' ==> r[i] == (s[i] as int + 32) as char
  {
    seq(|s|, i requires 0 <= i < |s| => LowerChar(s[i]))
  }

  /** Lower-casing twice is lower-casing once. */
  lemma LowerIdempotent(s: string)
    ensures Lower(Lower(s)) == Lower(s)
  {
  }

  /** `q` occurs in `s` starting at position `i`. */
  predicate OccursAt(s: string, q: string, i: nat) {
    i + |q| <= |s| && s[i..i + |q|] == q
  }

  /** The meaning of `s.includes(q)`: `q` occurs somewhere in `s`. */
  ghost predicate Contains(s: string, q: string) {
    exists i: nat :: OccursAt(s, q, i)
  }

  /** `s.includes(q)`, computed by trying every start position in turn. */
  function Includes(s: string, q: string): (b: bool)
    ensures b <==> Contains(s, q)
    decreases |s|
  {
    if q <= s then
      assert OccursAt(s, q, 0);
      true
    else if |s| == 0 then
      false
    else
      var rest := Includes(s[1..], q);
      if rest then
        var i: nat :| OccursAt(s[1..], q, i);
        assert OccursAt(s, q, i + 1);
        true
      else
        assert forall i: nat :: OccursAt(s, q, i) ==> i > 0 && OccursAt(s[1..], q, i - 1);
        false
  }

  /** The empty string is included in every string. */
  lemma EmptyIncluded(s: string)
    ensures Includes(s, "")
  {
    assert OccursAt(s, "", 0);
  }
}
